=== FILE: README.md ===
# chaser: a Dafny model of the per-frame simulation

chaser is a small browser game. A player sprite follows the mouse, five
enemy sprites chase the player, the enemies push each other apart, and a
`<progress>` health bar drains while enemies touch the player. Once the bar
is empty a click on the canvas restarts the game. This project models the
simulation core of `chaser.js` as pure functions over immutable records, and
proves properties of it:

- `arith.dfy` (module `RealArith`): small facts about real multiplication and
  division used by the geometric proofs.
- `sprites.dfy` (module `Sprites`): the `Sprite` record and its three geometric
  methods, `collidedWith` (`Collided`), `moveToward` (`MoveToward`, one
  coordinate at a time as `Approach`) and `pushOffFrom` (`PushOffFrom`).
- `pairs.dfy` (module `Pairs`): the nested `i < j` loop of `updateScene`,
  written as an explicit list of index pairs.
- `scene.dfy` (module `Scene`): `updateScene` as a function from a `World`
  (player, enemies, health) to the next one. It is built from the seek pass,
  the separation pass (a fold of `PushOffFrom` over the pairs) and the
  damage loop. The module also holds the initial world of the script.
- `lifecycle.dfy` (module `Lifecycle`): `game.isOver`, `game.start`, the click
  handler and `drawScene`'s continue/stop decision. The browser's frame loop
  is a count of pending `drawScene` callbacks, and browser events are folded
  over a `Game`.
- `as_written.dfy` (module `AsWritten`): `updateScene` and `drawScene` exactly
  as written, where the pair loop calls a function `pushOff` that does not
  exist. See "Findings".

Modelling choices:

- Coordinates, radii, speeds and health are `real`: an idealisation of
  JavaScript doubles.
- `Math.hypot` is passed in as a function `hypot` that must be the exact
  Euclidean norm (`Sprites.IsHypot`: non-negative, and its square is
  `dx² + dy²`).
- Health is the value the `<progress>` element reports. The element, not the
  script, clamps a negative value to 0, and `Scene.Clamp` models that clamp.
  So a frame with `k` touching enemies leaves `max(0, h − 0.5·k)`.
- The initial health comes from markup that is not part of this model, so it
  is a parameter (`Scene.InitialWorld`, `Lifecycle.Boot`). The canvas centre
  used by `game.start` is a parameter too, and so is the mouse position:
  each `Frame` event carries it.
- `pushOffFrom` divides by the distance between the two centres. When
  overlapping centres coincide, that distance is 0 and the script produces
  NaN coordinates. `Sprites.PushOffFrom` requires that this does not happen
  (`Separable`). The separation pass checks each pair before calling it, and
  on a coincident pair it returns `Coincident(i, j)` instead of inventing
  positions.
- Each enemy touching the player costs 0.5 health per frame
  (`Scene.DamagePerHit`, chaser.js:108).
- `game.start` does not reset the enemies: a restart leaves them where they
  are (`Lifecycle.Start`, chaser.js:14-18).

## Model

| member | source | states |
|---|---|---|
| `Sprites.Collided` | chaser.js:35-38 | Two sprites collide exactly when the radii sum is positive and the squared centre distance is strictly below its square. So the test is strict: circles that are exactly tangent do not collide. |
| `Sprites.CollidedSymmetric` | chaser.js:35-38 | `a.collidedWith(b)` and `b.collidedWith(a)` always agree. |
| `Sprites.Approach` | chaser.js:40-41 | One coordinate of the seek step: the offset to the target becomes `(1 − speed)` times the old offset, a coordinate already on the target stays put, and for a speed in [0, 1] the new value lies between the old value and the target. |
| `Sprites.MoveToward` | chaser.js:39-42 | Only the mover's x and y change (radius and speed are kept). Each offset to the target shrinks by the factor `1 − speed`. A mover already on the target stays put. For a speed in [0, 1] the mover never overshoots on either axis. |
| `Sprites.SeekRepeatedlyOffset` | chaser.js:39-42 | After `n` seeks toward a fixed target, the offset is `(1 − speed)^n` times the original one: an exponential approach. |
| `Sprites.SeekRepeatedlyNeverOvershoots` | chaser.js:39-42 | With a speed in [0, 1], no number of seeks toward a fixed target overshoots it. |
| `Sprites.CoincidentOverlap` | chaser.js:45-48 | Coincident centres with a positive radii sum always overlap, so `pushOffFrom` would divide by a zero distance. |
| `Sprites.PushOffFrom` | chaser.js:43-55 | Radius and speed of both sprites are kept. When `radius + other.radius − distance ≤ 0` (apart or exactly tangent) nothing moves. Otherwise the two centres move by equal and opposite vectors, so their midpoint is preserved. |
| `Sprites.PushOffLeavesTangent` | chaser.js:44-53 | After resolving an overlap, the centre distance equals the sum of the radii, and the two sprites no longer collide. |
| `Sprites.PushOffAlongCentreLine` | chaser.js:44-53 | When resolving an overlap, the first sprite moves along the line through the two centres, away from the other sprite. |
| `Sprites.PushOffSymmetric` | chaser.js:43-55 | `b.pushOffFrom(a)` gives the same two positions as `a.pushOffFrom(b)`. |
| `Sprites.NoOverlapNoCollision` | chaser.js:35-38 | Circles with `radius + other.radius − distance ≤ 0` do not collide: the overlap test of `pushOffFrom` and the collision test agree. |
| `Sprites.PushOffApart` | chaser.js:43-55 | Whatever the overlap, after `pushOffFrom` the two sprites do not collide. |
| `Pairs.Row` | chaser.js:102-104 | The inner loop of row `i` starting at `j` visits exactly `(i, j), (i, j + 1), …, (i, n − 1)`, in that order. |
| `Pairs.PairsFrom` | chaser.js:101-105 | The loops from row `i` on visit only pairs `i ≤ a < b < n`. Nothing is visited when fewer than two indices remain. |
| `Pairs.PairsFromAscending` | chaser.js:101-105 | The loops from row `i` on visit their pairs in strictly ascending lexicographic order. |
| `Pairs.PairAt` | chaser.js:101-105 | The pair `(a, b)` is visited right after the full rows `i … a − 1`, at position `b − a − 1` of row `a`. |
| `Pairs.PairsFromComplete` | chaser.js:101-105 | The loops from row `i` on visit every pair `i ≤ a < b < n`. |
| `Pairs.PairsFromCount` | chaser.js:101-105 | The loops from row `i` on visit `0 + 1 + … + (n − i − 1)` pairs. |
| `Pairs.PairsFromLast` | chaser.js:101-105 | With at least two indices left, the last pair the loops visit is `(n − 2, n − 1)`. |
| `Pairs.AllPairsVisitsEachPairOnce` | chaser.js:101-105 | The nested loop visits exactly the pairs `i < j < n`, each once, in ascending order, `n(n − 1)/2` of them. |
| `Scene.Clamp` | chaser.js:108 | The value the progress element reports after a write is never negative, never below the written value, equal to it when the written value is non-negative, and exactly 0 when it is negative. |
| `Scene.SeekAll` | chaser.js:100 | Every enemy makes one seek step toward the same target. Radii, speeds and the number of enemies are kept. |
| `Scene.Separate` | chaser.js:101-105 | Folding `pushOffFrom` over a pair list keeps the number of enemies, their radii and speeds, and the sum of their coordinates (their centroid). If no listed pair overlaps, nothing moves. A failure names a listed pair. |
| `Scene.SeparateAll` | chaser.js:101-105 | The separation pass over all pairs keeps shape and centroid. A failure names a pair `i < j` of the list. With fewer than two enemies nothing moves. |
| `Scene.SeparateConcat` | chaser.js:101-105 | Separating over `ps + qs` is separating over `ps` and then, from the positions that produces, over `qs`. A failure in `ps` stops the pass. |
| `Scene.OnePairApart` | chaser.js:103 | Separating one pair leaves that pair not colliding. |
| `Scene.EachPairApartWhenVisited` | chaser.js:101-105 | Each listed pair is not colliding right after its own push. Later pushes may move either enemy again, as in the script. |
| `Scene.SeparatePrefix` | chaser.js:101-105 | A pass that succeeds over a pair list also succeeds over each of its prefixes. |
| `Scene.SeparateAllPushesEachPairApart` | chaser.js:101-105 | When the separation pass of `updateScene` succeeds, every enemy pair `i < j` is not colliding right after its own push. |
| `Scene.SeparateAllLastPairApart` | chaser.js:101-105 | When the separation pass succeeds, its last pair `(n − 2, n − 1)` is not colliding in the final positions. |
| `Scene.Damage` | chaser.js:106-110 | Health after the damage loop is the starting health less exactly 0.5 per enemy touching the player, clamped at 0. It never rises. |
| `Scene.Settle` | chaser.js:101-110 | After the seek steps, this step succeeds exactly when the separation pass does. Its enemies are that pass's result, and the player is kept. Health drops by 0.5 per enemy touching the player after separation, clamped at 0. A failure names a pair `i < j`. |
| `Scene.UpdateScene` | chaser.js:98-111 | The player ends one seek step toward the mouse. The step succeeds exactly when the separation pass does, run on the enemies after each seeks the MOVED player, and its enemies are that pass's result. Enemy count, radii and speeds are kept. Health drops by 0.5 per enemy touching the moved player after separation, clamped at 0. With fewer than two enemies a step always succeeds, and a failure names a pair `i < j`. |
| `Scene.EnemiesSeekMovedPlayer` | chaser.js:99-100 | Enemies seek the player's new position. When no two enemies overlap after seeking, each enemy ends one seek step toward the already-moved player. |
| `Scene.InitialWorld` | chaser.js:75-89 | The page starts with five enemies. Every radius is positive and every speed lies in [0, 1]. The health is the markup value as the progress element reports it (clamped at 0). |
| `Lifecycle.IsOver` | chaser.js:19-21 | For a reported (non-negative) health, the game is over exactly when the bar is empty. |
| `Lifecycle.Start` | chaser.js:14-18 | `game.start` sets health to 100 and moves the player to the canvas centre, keeping its radius and speed. It leaves the enemies where they are and requests one more frame. The game is not over afterwards. |
| `Lifecycle.OnClick` | chaser.js:7-11 | A click changes something only when the game is over. Then it is exactly `game.start`: player at the canvas centre, health 100, one more frame, not over. Enemies are never touched. |
| `Lifecycle.DrawScene` | chaser.js:118-129 | A frame applies `updateScene` to the world: it succeeds exactly when the update does, and its world is the updated one. A new frame is then requested exactly when the game is not over. The pending count is unchanged while the game goes on and drops by one once it is over. Health never rises, and the enemy shape is kept. |
| `Lifecycle.Step` | chaser.js:118-129 | One browser event runs a pending `drawScene` or the click handler (chaser.js:7-11). Any single event keeps health non-negative and keeps the enemies' number, radii and speeds. |
| `Lifecycle.Run` | chaser.js:118-129 | Over any sequence of events, health stays non-negative and the number, radii and speeds of the enemies never change. |
| `Lifecycle.Boot` | chaser.js:75-89 | The page as loaded holds the initial world and the one frame requested at the end of the script (chaser.js:131). Its game is over exactly when the markup health is at most 0. |
| `Lifecycle.BootHasOneLoop` | chaser.js:131 | With positive health in the markup, the page starts with exactly one frame loop. |
| `Lifecycle.StepKeepsOneLoop` | chaser.js:123-128 | One event keeps exactly one frame pending while the game is on, and none while it is over. |
| `Lifecycle.RunKeepsOneLoop` | chaser.js:123-128 | Any event sequence keeps that invariant: one frame pending while the game is on, none once it is over. |
| `Lifecycle.FrameRunsUpdate` | chaser.js:118-129 | On a running page with one frame loop, a frame event runs `drawScene`. It fails exactly when `updateScene` does, and its world is the updated one. One frame stays pending unless that update ended the game. |
| `Lifecycle.ClickRestartsOneLoop` | chaser.js:7-18 | On a page with one frame loop whose game is over, a click is exactly `game.start`. It leaves exactly one frame pending and the game running. |
| `Lifecycle.NoFramesWhenOver` | chaser.js:123-128 | With one frame loop (`OneLoop`), once the game is over a frame event changes nothing: no callback is pending. |
| `Lifecycle.StalledStaysStalled` | chaser.js:7-11 | A page with no frame pending and a game that is not over never changes again, whatever events follow. |
| `Lifecycle.EmptyBarClickStartsSecondLoop` | chaser.js:7-18 | With an empty bar in the markup, a click before the first frame leaves two frame loops pending. |
| `AsWritten.UpdateSceneAsWritten` | chaser.js:98-111 | As written, `updateScene` throws exactly when there are at least two enemies. By then the player and the enemies have made their seek steps, and health is untouched. |
| `AsWritten.DrawSceneAsWritten` | chaser.js:118-129 | As written, with at least two enemies a frame consumes its callback, requests none, and leaves health unchanged. |
| `AsWritten.AsWrittenFreezesOnFirstFrame` | chaser.js:103 | As written, with any positive markup health, the first frame leaves no frame pending while the game is not over. After that, no sequence of frames or clicks changes anything. |

## Left out

- Drawing is not modelled: `Sprite.draw`, `Player.draw`, `clearBackground`, the game-over text and the colours. They are rendering side effects.
- Image loading in `Player`'s constructor is not modelled. It is a network fetch.
- Mouse capture (`updateMouse`, `getBoundingClientRect`) is not modelled. The mouse is an arbitrary point carried by each `Frame` event.
- `requestAnimationFrame` is not modelled beyond the count of pending callbacks. When the browser runs them is left to the order of the `Frame` events.
- `canvas.width` and `canvas.height` are not modelled. The canvas centre is a parameter.
- `Scene.Clamp`: the `<progress>` element also clamps at its `max` attribute. The markup that sets `max` is not part of this model, so `max` is assumed to be at least 100 and the upper clamp is left out.
- IEEE-754 rounding, overflow and NaN are not modelled. Arithmetic is exact over `real`, and `Math.hypot` is an exact oracle.
- `Sprites.PushOffFrom`: for coincident, overlapping centres the script produces NaN coordinates. The model requires this not to happen, and `Scene.Separate` reports such a pair as `Coincident` instead.

## Findings

| source | as written | input that shows it | evidently intended | confidence | as-written member | corrected member |
|---|---|---|---|---|---|---|
| chaser.js:103 | The pair loop calls `pushOff(enemies[i], enemies[j])`, but no function `pushOff` is defined (the method is `Sprite.pushOffFrom`). The first pair throws a ReferenceError after the seek steps and before the damage loop. `drawScene` then requests no new frame while the game is not over, and clicks are ignored. | The initial page, with five enemies and any positive health: the first frame freezes the game. | `enemies[i].pushOffFrom(enemies[j])` | high; not executed | `AsWritten.AsWrittenFreezesOnFirstFrame` | `Scene.UpdateScene` (a frame runs it and keeps the loop going: `Lifecycle.FrameRunsUpdate`, `Lifecycle.RunKeepsOneLoop`) |

=== FILE: arith.dfy ===
/**
 Small facts about real multiplication and division. Each takes the products
 it talks about as separate arguments, so that callers can combine the
 conclusions by linear reasoning alone.
 */
module RealArith {

  /** Multiplying by a non-negative factor keeps a non-strict order. */
  lemma MulLe(k: real, a: real, b: real, p: real, q: real)
    requires 0.0 <= k && a <= b
    requires p == k * a && q == k * b
    ensures p <= q
  {
  }

  /** Multiplying by a positive factor keeps a strict order. */
  lemma MulLt(k: real, a: real, b: real, p: real, q: real)
    requires 0.0 < k && a < b
    requires p == k * a && q == k * b
    ensures p < q
  {
  }

  /** A square is never negative, and it is positive away from zero. */
  lemma SquareSign(v: real, p: real)
    requires p == v * v
    ensures 0.0 <= p
    ensures v != 0.0 ==> 0.0 < p
  {
    if 0.0 < v {
      MulLt(v, 0.0, v, 0.0, p);
    } else if v < 0.0 {
      MulLt(-v, 0.0, -v, 0.0, p);
    }
  }

  /** Dividing and multiplying back by a non-zero divisor is the identity. */
  lemma DivMul(x: real, d: real, u: real)
    requires d != 0.0 && u == x / d
    ensures u * d == x
  {
  }

  /** Negating the dividend negates the quotient. */
  lemma DivNeg(x: real, d: real)
    requires d != 0.0
    ensures (-x) / d == -(x / d)
  {
    var u, v := x / d, (-x) / d;
    DivMul(x, d, u);
    DivMul(-x, d, v);
    assert (u + v) * d == 0.0;
  }

  /** A unit vector scaled by `s` has squared length `s * s`. */
  lemma ScaledUnit(ux: real, uy: real, s: real, ex: real, ey: real)
    requires ux * ux + uy * uy == 1.0
    requires ex == ux * s && ey == uy * s
    ensures ex * ex + ey * ey == s * s
  {
    var uu, ss := ux * ux + uy * uy, s * s;
    assert ex * ex + ey * ey == uu * ss;
  }

  /** The offset `(dx, dy)` divided by its length `d` is a unit vector whose
      dot product with the offset is `d`. */
  lemma UnitVector(dx: real, dy: real, d: real, ux: real, uy: real)
    requires 0.0 < d && d * d == dx * dx + dy * dy
    requires ux == dx / d && uy == dy / d
    ensures ux * d == dx && uy * d == dy
    ensures ux * ux + uy * uy == 1.0
    ensures ux * dx + uy * dy == d
  {
    DivMul(dx, d, ux);
    DivMul(dy, d, uy);
    var uu, dd := ux * ux + uy * uy, d * d;
    assert dx * dx + dy * dy == uu * dd;
    SquareSign(d, dd);
    assert (uu - 1.0) * dd == 0.0;
    assert ux * dx + uy * dy == uu * d;
  }

  /** Two non-negative reals with the same square are equal. */
  lemma SquareRootUnique(a: real, b: real)
    requires 0.0 <= a && 0.0 <= b
    requires a * a == b * b
    ensures a == b
  {
    var aa, ab, bb := a * a, a * b, b * b;
    if a < b {
      MulLe(a, a, b, aa, ab);
      MulLt(b, a, b, ab, bb);
    } else if b < a {
      MulLe(b, b, a, bb, ab);
      MulLt(a, b, a, ab, aa);
    }
  }

  /** For a non-negative `d`, `d < s` exactly when `s` is positive and `d² < s²`. */
  lemma LessIffSquareLess(d: real, s: real)
    requires 0.0 <= d
    ensures d < s <==> 0.0 < s && d * d < s * s
  {
    var dd, ds, ss := d * d, d * s, s * s;
    if d < s {
      MulLe(d, d, s, dd, ds);
      MulLt(s, d, s, ds, ss);
    } else if 0.0 < s {
      MulLe(s, s, d, ss, ds);
      MulLe(d, s, d, ds, dd);
    }
  }
}

=== FILE: as_written.dfy ===
/**
 `updateScene` exactly as chaser.js writes it. Its pair loop calls
 `pushOff(enemies[i], enemies[j])`, and no function `pushOff` exists (the
 method is `Sprite.pushOffFrom`), so the first pair throws a ReferenceError.
 By then the player and the enemies have already moved; the damage loop and
 the rest of `drawScene` never run, so no next frame is requested.
 */
module AsWritten {
  import opened Sprites
  import opened Scene
  import opened Lifecycle

  /** How `updateScene` ends: normally, or by an exception that escapes it,
      with the world as the exception leaves it. */
  datatype Outcome = Returned(world: World) | Threw(world: World)

  /** `updateScene` as written. It throws exactly when there is an enemy
      pair to visit; either way the player has made its seek step, and when
      it throws the enemies have made theirs but health is untouched. */
  function UpdateSceneAsWritten(w: World, mouse: Point, hypot: Hypot): (r: Outcome)
    requires IsHypot(hypot)
    requires 0.0 <= w.health
    ensures r.Threw? <==> 2 <= |w.enemies|
    ensures r.world.player == MoveToward(w.player, mouse)
    ensures r.Threw? ==> r.world.health == w.health
    ensures r.Threw? ==> |r.world.enemies| == |w.enemies| && forall k :: 0 <= k < |w.enemies| ==>
      r.world.enemies[k] == MoveToward(w.enemies[k], r.world.player.Center())
  {
    var p := MoveToward(w.player, mouse);
    var seeking := SeekAll(w.enemies, p.Center());
    if 2 <= |seeking| then
      Threw(World(p, seeking, w.health))
    else
      Returned(World(p, seeking, Damage(w.health, seeking, p, hypot)))
  }

  /** `drawScene` as written: an exception from `updateScene` leaves it
      before `requestAnimationFrame`, so the frame is consumed and none is
      requested. */
  function DrawSceneAsWritten(g: Game, mouse: Point, hypot: Hypot): (r: Game)
    requires IsHypot(hypot)
    requires 0.0 <= g.world.health
    requires 0 < g.pending
    ensures 2 <= |g.world.enemies| ==> r.pending == g.pending - 1 && r.world.health == g.world.health
  {
    match UpdateSceneAsWritten(g.world, mouse, hypot)
    case Threw(w) => Game(w, g.pending - 1)
    case Returned(w) => Game(w, if IsOver(w) then g.pending - 1 else g.pending)
  }

  /** The first frame of the page as written freezes the game for good: with
      any positive health in the markup, the five enemies make the first
      frame throw, no frame is pending afterwards, the game is not over, and
      therefore no later event (frame or click) changes anything. The
      corrected frame (`Lifecycle.DrawScene`) instead keeps one frame pending
      while the game is not over. */
  lemma AsWrittenFreezesOnFirstFrame(markupHealth: real, mouse: Point, centre: Point, hypot: Hypot, events: seq<Event>)
    requires IsHypot(hypot)
    requires 0.0 < markupHealth
    ensures var g := DrawSceneAsWritten(Boot(markupHealth), mouse, hypot);
      g.pending == 0 && !IsOver(g.world) && Run(g, events, centre, hypot) == Ok(g)
  {
    var g := DrawSceneAsWritten(Boot(markupHealth), mouse, hypot);
    StalledStaysStalled(g, events, centre, hypot);
  }
}

=== FILE: lifecycle.dfy ===
/**
 The game lifecycle around `updateScene`: `game.isOver`, `game.start`, the
 canvas click handler and the continue/stop decision of `drawScene`.

 The browser's frame loop is modelled by `pending`, the number of
 `drawScene` callbacks requested with `requestAnimationFrame` and not yet
 run. A `Frame` event runs one of them, if there is one; a `Click` event is
 a click on the canvas. The mouse position is carried by each frame, and
 the canvas centre is a parameter.
 */
module Lifecycle {
  import opened Sprites
  import opened Scene

  /** The health `game.start` puts in the progress bar. */
  const FullHealth: real := 100.0

  /** The page: the world and the number of pending frame callbacks. */
  datatype Game = Game(world: World, pending: nat)

  /** What the browser delivers to the page. */
  datatype Event = Frame(mouse: Point) | Click

  /** `game.isOver()`: the progress bar's value is at most 0. Since the
      element never reports a negative value, that means the bar is empty. */
  function IsOver(w: World): (r: bool)
    ensures 0.0 <= w.health ==> (r <==> w.health == 0.0)
  {
    w.health <= 0.0
  }

  /** `game.start()`: full health, the player back at the canvas centre with
      its radius and speed, the enemies left wherever they are, and one more
      frame requested. The game is running afterwards. */
  function Start(g: Game, centre: Point): (r: Game)
    ensures r.world.health == FullHealth && !IsOver(r.world)
    ensures r.world.player.Center() == centre
    ensures r.world.player.radius == g.world.player.radius && r.world.player.speed == g.world.player.speed
    ensures r.world.enemies == g.world.enemies
    ensures r.pending == g.pending + 1
  {
    Game(World(g.world.player.(x := centre.x, y := centre.y), g.world.enemies, FullHealth), g.pending + 1)
  }

  /** The canvas click handler: a click restarts the game only when it is
      over, and then leaves it running; otherwise it changes nothing. */
  function OnClick(g: Game, centre: Point): (r: Game)
    ensures r != g ==> IsOver(g.world)
    ensures IsOver(g.world) ==> !IsOver(r.world) && r.world.health == FullHealth && r.pending == g.pending + 1
    ensures IsOver(g.world) ==> r == Start(g, centre) && r.world.player.Center() == centre
    ensures r.world.enemies == g.world.enemies
  {
    if IsOver(g.world) then Start(g, centre) else g
  }

  /** `drawScene` (drawing left out): one `updateScene`, then a new frame is
      requested exactly when the game is not over. The frame that ran is
      consumed, so the pending count stays the same while the game goes on
      and drops by one once it is over. Health never rises in a frame. */
  function DrawScene(g: Game, mouse: Point, hypot: Hypot): (r: Result<Game>)
    requires IsHypot(hypot)
    requires 0.0 <= g.world.health
    requires 0 < g.pending
    ensures r.Ok? <==> UpdateScene(g.world, mouse, hypot).Ok?
    ensures r.Ok? ==> r.value.world == UpdateScene(g.world, mouse, hypot).value
    ensures r.Ok? ==> (r.value.pending == g.pending <==> !IsOver(r.value.world))
    ensures r.Ok? ==> (r.value.pending == g.pending - 1 <==> IsOver(r.value.world))
    ensures r.Ok? ==> 0.0 <= r.value.world.health <= g.world.health
    ensures r.Ok? ==> SameShape(g.world.enemies, r.value.world.enemies)
  {
    match UpdateScene(g.world, mouse, hypot)
    case Coincident(i, j) => Coincident(i, j)
    case Ok(w) => Ok(Game(w, if IsOver(w) then g.pending - 1 else g.pending))
  }

  /** One browser event. A frame with no callback pending does nothing. */
  function Step(g: Game, e: Event, centre: Point, hypot: Hypot): (r: Result<Game>)
    requires IsHypot(hypot)
    requires 0.0 <= g.world.health
    ensures r.Ok? ==> 0.0 <= r.value.world.health
    ensures r.Ok? ==> SameShape(g.world.enemies, r.value.world.enemies)
  {
    match e
    case Click => Ok(OnClick(g, centre))
    case Frame(mouse) => if g.pending == 0 then Ok(g) else DrawScene(g, mouse, hypot)
  }

  /** A sequence of browser events, stopping at the first coincident pair. */
  function Run(g: Game, events: seq<Event>, centre: Point, hypot: Hypot): (r: Result<Game>)
    requires IsHypot(hypot)
    requires 0.0 <= g.world.health
    ensures r.Ok? ==> 0.0 <= r.value.world.health
    ensures r.Ok? ==> SameShape(g.world.enemies, r.value.world.enemies)
    decreases |events|
  {
    if |events| == 0 then
      Ok(g)
    else
      match Step(g, events[0], centre, hypot)
      case Coincident(i, j) => Coincident(i, j)
      case Ok(g') => Run(g', events[1..], centre, hypot)
  }

  /** Exactly one frame loop runs while the game is on, and none once it is over. */
  predicate OneLoop(g: Game) {
    if IsOver(g.world) then g.pending == 0 else g.pending == 1
  }

  /** The page as loaded: the initial world and the one frame requested at
      the end of the script. */
  function Boot(markupHealth: real): (g: Game)
    ensures g.world == InitialWorld(markupHealth) && g.pending == 1
    ensures g.world.health == Clamp(markupHealth)
    ensures IsOver(g.world) <==> markupHealth <= 0.0
  {
    Game(InitialWorld(markupHealth), 1)
  }

  /** With a positive health in the markup the page starts with one loop. */
  lemma BootHasOneLoop(markupHealth: real)
    requires 0.0 < markupHealth
    ensures OneLoop(Boot(markupHealth))
  {
  }

  /** One event keeps exactly one frame loop running while the game is on
      and none while it is over. */
  lemma StepKeepsOneLoop(g: Game, e: Event, centre: Point, hypot: Hypot)
    requires IsHypot(hypot)
    requires 0.0 <= g.world.health
    requires OneLoop(g)
    ensures Step(g, e, centre, hypot).Ok? ==> OneLoop(Step(g, e, centre, hypot).value)
  {
  }

  /** Any event sequence keeps exactly one frame loop running while the game
      is on and none while it is over. `FrameRunsUpdate` and
      `ClickRestartsOneLoop` say what each event does to the page. */
  lemma {:induction false} RunKeepsOneLoop(g: Game, events: seq<Event>, centre: Point, hypot: Hypot)
    requires IsHypot(hypot)
    requires 0.0 <= g.world.health
    requires OneLoop(g)
    ensures Run(g, events, centre, hypot).Ok? ==> OneLoop(Run(g, events, centre, hypot).value)
    decreases |events|
  {
    if |events| > 0 {
      StepKeepsOneLoop(g, events[0], centre, hypot);
      var s := Step(g, events[0], centre, hypot);
      if s.Ok? {
        RunKeepsOneLoop(s.value, events[1..], centre, hypot);
      }
    }
  }

  /** On a running page, a frame event runs the pending `drawScene`: it
      fails exactly when `updateScene` does, its world is the updated one,
      and the loop goes on with one frame pending unless that update ended
      the game. */
  lemma FrameRunsUpdate(g: Game, mouse: Point, centre: Point, hypot: Hypot)
    requires IsHypot(hypot)
    requires 0.0 <= g.world.health
    requires OneLoop(g) && !IsOver(g.world)
    ensures Step(g, Frame(mouse), centre, hypot).Ok? <==> UpdateScene(g.world, mouse, hypot).Ok?
    ensures Step(g, Frame(mouse), centre, hypot).Ok? ==>
      Step(g, Frame(mouse), centre, hypot).value.world == UpdateScene(g.world, mouse, hypot).value
    ensures Step(g, Frame(mouse), centre, hypot).Ok? ==>
      (Step(g, Frame(mouse), centre, hypot).value.pending == 1 <==> !IsOver(UpdateScene(g.world, mouse, hypot).value))
  {
  }

  /** On a page whose game is over, a click is `game.start`: full health,
      the player at the canvas centre, and exactly one frame loop again. */
  lemma ClickRestartsOneLoop(g: Game, centre: Point, hypot: Hypot)
    requires IsHypot(hypot)
    requires 0.0 <= g.world.health
    requires OneLoop(g) && IsOver(g.world)
    ensures Step(g, Click, centre, hypot) == Ok(Start(g, centre))
    ensures Step(g, Click, centre, hypot).value.pending == 1
    ensures !IsOver(Step(g, Click, centre, hypot).value.world)
    ensures OneLoop(Step(g, Click, centre, hypot).value)
  {
  }

  /** Once the game is over no frame runs: the world does not change until a click. */
  lemma NoFramesWhenOver(g: Game, mouse: Point, centre: Point, hypot: Hypot)
    requires IsHypot(hypot)
    requires 0.0 <= g.world.health
    requires OneLoop(g) && IsOver(g.world)
    ensures Step(g, Frame(mouse), centre, hypot) == Ok(g)
  {
  }

  /** A page with no frame pending whose game is not over is stuck for good:
      frames have nothing to run and clicks are ignored. */
  lemma {:induction false} StalledStaysStalled(g: Game, events: seq<Event>, centre: Point, hypot: Hypot)
    requires IsHypot(hypot)
    requires 0.0 <= g.world.health
    requires g.pending == 0 && !IsOver(g.world)
    ensures Run(g, events, centre, hypot) == Ok(g)
    decreases |events|
  {
    if |events| > 0 {
      assert Step(g, events[0], centre, hypot) == Ok(g);
      StalledStaysStalled(g, events[1..], centre, hypot);
    }
  }

  /** With an empty bar in the markup, a click before the first frame starts
      a second loop next to the one the script requested. */
  lemma EmptyBarClickStartsSecondLoop(markupHealth: real, centre: Point)
    requires markupHealth <= 0.0
    ensures OnClick(Boot(markupHealth), centre).pending == 2
    ensures !OneLoop(OnClick(Boot(markupHealth), centre))
  {
  }
}

=== FILE: pairs.dfy ===
/**
 The order in which `updateScene` visits the enemy pairs: the nested loop
 `for i in 0..n, for j in i+1..n`. The pairs are listed explicitly so that
 the separation pass can be written as a fold over them, and the facts the
 loop promises (every unordered pair once, in ascending order) are proved
 about the list.
 */
module Pairs {

  /** Strict lexicographic order on index pairs: the order the loops run in. */
  predicate Before(p: (nat, nat), q: (nat, nat)) {
    p.0 < q.0 || (p.0 == q.0 && p.1 < q.1)
  }

  /** The inner loop: `(i, j), (i, j + 1), ..., (i, n - 1)`. */
  function Row(i: nat, j: nat, n: nat): (r: seq<(nat, nat)>)
    ensures |r| == if j <= n then n - j else 0
    ensures forall k :: 0 <= k < |r| ==> r[k] == (i, j + k)
    decreases n - j
  {
    if j >= n then [] else [(i, j)] + Row(i, j + 1, n)
  }

  /** The outer loop from `i` on: the rows of `i, i + 1, ..., n - 1`. */
  function PairsFrom(i: nat, n: nat): (r: seq<(nat, nat)>)
    ensures forall k :: 0 <= k < |r| ==> i <= r[k].0 < r[k].1 < n
    ensures n <= i + 1 ==> r == []
    decreases n - i
  {
    if i >= n then [] else Row(i, i + 1, n) + PairsFrom(i + 1, n)
  }

  /** Every pair of the `n` enemies visited by `updateScene`, in visiting order. */
  function AllPairs(n: nat): seq<(nat, nat)> {
    PairsFrom(0, n)
  }

  /** `0 + 1 + ... + (m - 1)`: the number of pairs among `m` indices. */
  function Triangle(m: nat): nat {
    if m == 0 then 0 else m - 1 + Triangle(m - 1)
  }

  /** The closed form of `Triangle`. */
  lemma {:induction false} TriangleClosedForm(m: nat)
    ensures 2 * Triangle(m) == m * (m - 1)
  {
    if m > 0 {
      TriangleClosedForm(m - 1);
      var k := m - 1;
      assert k * (k - 1) + 2 * k == (k + 1) * k;
    }
  }

  /** The rows of `i .. n - 1` hold one pair per pair of indices among them. */
  lemma {:induction false} PairsFromCount(i: nat, n: nat)
    requires i <= n
    ensures |PairsFrom(i, n)| == Triangle(n - i)
    decreases n - i
  {
    if i < n {
      PairsFromCount(i + 1, n);
    }
  }

  /** The rows from `i` on come in strictly ascending lexicographic order. */
  lemma {:induction false} PairsFromAscending(i: nat, n: nat)
    ensures forall k, l :: 0 <= k < l < |PairsFrom(i, n)| ==> Before(PairsFrom(i, n)[k], PairsFrom(i, n)[l])
    decreases n - i
  {
    if i < n {
      PairsFromAscending(i + 1, n);
      var row, rest := Row(i, i + 1, n), PairsFrom(i + 1, n);
      var r := row + rest;
      assert r == PairsFrom(i, n);
      forall k, l | 0 <= k < l < |r|
        ensures Before(r[k], r[l])
      {
        if l < |row| {
          assert r[k] == row[k] && r[l] == row[l];
        } else if k < |row| {
          assert r[k] == row[k] && r[l] == rest[l - |row|];
        } else {
          assert r[k] == rest[k - |row|] && r[l] == rest[l - |row|];
        }
      }
    }
  }

  /** Where the loops from row `i` on visit the pair `(a, b)`: after the
      rows of `i .. a - 1`, at position `b - a - 1` of row `a`. */
  function PairIndex(i: nat, a: nat, b: nat, n: nat): nat
    requires i <= a < b < n
    decreases a - i
  {
    if i == a then b - a - 1 else (n - i - 1) + PairIndex(i + 1, a, b, n)
  }

  /** The rows from `i` on visit the pair `(a, b)` at `PairIndex(i, a, b, n)`. */
  lemma {:induction false} PairAt(i: nat, a: nat, b: nat, n: nat)
    requires i <= a < b < n
    ensures PairIndex(i, a, b, n) < |PairsFrom(i, n)|
    ensures PairsFrom(i, n)[PairIndex(i, a, b, n)] == (a, b)
    decreases a - i
  {
    var row, rest := Row(i, i + 1, n), PairsFrom(i + 1, n);
    assert PairsFrom(i, n) == row + rest;
    if i == a {
      assert row[b - a - 1] == (a, b);
    } else {
      PairAt(i + 1, a, b, n);
      var q := PairIndex(i + 1, a, b, n);
      assert PairIndex(i, a, b, n) == |row| + q;
      assert (row + rest)[|row| + q] == rest[q];
    }
  }

  /** The rows from `i` on visit every pair `i <= a < b < n`. */
  lemma PairsFromComplete(i: nat, n: nat)
    ensures forall a: nat, b: nat :: i <= a < b < n ==> (a, b) in PairsFrom(i, n)
  {
    forall a: nat, b: nat | i <= a < b < n
      ensures (a, b) in PairsFrom(i, n)
    {
      PairAt(i, a, b, n);
    }
  }

  /** With at least two indices left, the last pair the loops visit is
      `(n - 2, n - 1)`. */
  lemma {:induction false} PairsFromLast(i: nat, n: nat)
    requires i + 1 < n
    ensures |PairsFrom(i, n)| > 0
    ensures PairsFrom(i, n)[|PairsFrom(i, n)| - 1] == (n - 2, n - 1)
    decreases n - i
  {
    var row, rest := Row(i, i + 1, n), PairsFrom(i + 1, n);
    assert PairsFrom(i, n) == row + rest;
    if i + 2 == n {
      assert rest == [];
      assert row[0] == (i, i + 1);
    } else {
      PairsFromLast(i + 1, n);
      assert (row + rest)[|row| + |rest| - 1] == rest[|rest| - 1];
    }
  }

  /** The loops visit exactly the pairs `i < j < n`, each once, in ascending
      lexicographic order, `n * (n - 1) / 2` of them. */
  lemma AllPairsVisitsEachPairOnce(n: nat)
    ensures forall k :: 0 <= k < |AllPairs(n)| ==> AllPairs(n)[k].0 < AllPairs(n)[k].1 < n
    ensures forall a: nat, b: nat :: a < b < n ==> (a, b) in AllPairs(n)
    ensures forall k, l :: 0 <= k < l < |AllPairs(n)| ==> Before(AllPairs(n)[k], AllPairs(n)[l])
    ensures forall k, l :: 0 <= k < l < |AllPairs(n)| ==> AllPairs(n)[k] != AllPairs(n)[l]
    ensures 2 * |AllPairs(n)| == n * (n - 1)
  {
    PairsFromAscending(0, n);
    PairsFromComplete(0, n);
    PairsFromCount(0, n);
    TriangleClosedForm(n);
  }
}

=== FILE: scene.dfy ===
/**
 One frame of the simulation, `updateScene`: the player seeks the mouse,
 every enemy seeks the already-moved player, every enemy pair is separated
 once in ascending order, and then each enemy touching the player costs
 `DamagePerHit` health.

 Health is the value reported by the page's `<progress>` element. The
 element, not the script, clamps a negative value to 0 (`Clamp`).

 Separating two enemies whose centres coincide divides by zero, which in
 the script turns their coordinates into NaN. The model stops there and
 reports the pair (`Coincident`) instead of inventing positions.
 */
module Scene {
  import opened Sprites
  import opened Pairs

  /** Health lost per enemy touching the player, per frame. */
  const DamagePerHit: real := 0.5

  /** The player, the enemies in array order, and the health value. */
  datatype World = World(player: Sprite, enemies: seq<Sprite>, health: real)

  /** The outcome of a computation that may hit a zero-distance pair. */
  datatype Result<T> = Ok(value: T) | Coincident(i: nat, j: nat)

  /** The value a `<progress>` element reports after being set to `v`
      (its upper clamp at `max` is not modelled). */
  function Clamp(v: real): (r: real)
    ensures 0.0 <= r && v <= r
    ensures 0.0 <= v ==> r == v
    ensures v < 0.0 ==> r == 0.0
  {
    if v < 0.0 then 0.0 else v
  }

  /** Two enemy lists agree in length, radii and speeds: only positions differ. */
  ghost predicate SameShape(es: seq<Sprite>, es': seq<Sprite>) {
    && |es| == |es'|
    && forall k :: 0 <= k < |es| ==> es'[k].radius == es[k].radius && es'[k].speed == es[k].speed
  }

  /** Keeping the shape twice keeps it. */
  lemma SameShapeTransitive(a: seq<Sprite>, b: seq<Sprite>, c: seq<Sprite>)
    requires SameShape(a, b) && SameShape(b, c)
    ensures SameShape(a, c)
  {
  }

  /** The sum of one coordinate over a list of sprites: `|es|` times the
      coordinate of their centroid. */
  function Total(es: seq<Sprite>, coord: Sprite -> real): real
    decreases |es|
  {
    if |es| == 0 then 0.0 else coord(es[0]) + Total(es[1..], coord)
  }

  /** Replacing one sprite changes the total by the difference of its coordinate. */
  lemma {:induction false} TotalUpdate(es: seq<Sprite>, i: nat, s: Sprite, coord: Sprite -> real)
    requires i < |es|
    ensures Total(es[i := s], coord) == Total(es, coord) - coord(es[i]) + coord(s)
    decreases |es|
  {
    if i > 0 {
      assert es[i := s][1..] == es[1..][i - 1 := s];
      TotalUpdate(es[1..], i - 1, s, coord);
    } else {
      assert es[i := s][1..] == es[1..];
    }
  }

  function X(s: Sprite): real { s.x }

  function Y(s: Sprite): real { s.y }

  /** The seek pass: every enemy makes one `MoveToward` step toward the
      same target point, in place. */
  function SeekAll(es: seq<Sprite>, target: Point): (r: seq<Sprite>)
    ensures SameShape(es, r)
    ensures forall k :: 0 <= k < |es| ==> r[k] == MoveToward(es[k], target)
  {
    seq(|es|, k requires 0 <= k < |es| => MoveToward(es[k], target))
  }

  /** The pair indices of `ps` are valid, distinct positions of a list of `n`. */
  predicate ValidPairs(ps: seq<(nat, nat)>, n: nat) {
    forall k :: 0 <= k < |ps| ==> ps[k].0 < ps[k].1 < n
  }

  /** The separation pass: `enemies[i].pushOffFrom(enemies[j])` for every pair
      `(i, j)` of `ps` in turn, each call seeing the positions the earlier
      calls produced. Only positions change, and since every call moves its
      two sprites by opposite amounts the centroid of the enemies is kept.
      If no listed pair overlaps, nothing moves. A failure names a listed
      pair with coincident, overlapping centres. */
  function Separate(es: seq<Sprite>, ps: seq<(nat, nat)>, hypot: Hypot): (r: Result<seq<Sprite>>)
    requires IsHypot(hypot)
    requires ValidPairs(ps, |es|)
    ensures r.Ok? ==> SameShape(es, r.value)
    ensures r.Ok? ==> Total(r.value, X) == Total(es, X) && Total(r.value, Y) == Total(es, Y)
    ensures r.Coincident? ==> (r.i, r.j) in ps
    ensures (forall k :: 0 <= k < |ps| ==> Overlap(es[ps[k].0], es[ps[k].1], hypot) <= 0.0) ==> r == Ok(es)
    decreases |ps|
  {
    if |ps| == 0 then
      Ok(es)
    else
      var (i, j) := ps[0];
      if !Separable(es[i], es[j]) then
        CoincidentOverlap(es[i], es[j], hypot);
        Coincident(i, j)
      else
        var (a, b) := PushOffFrom(es[i], es[j], hypot);
        var es' := es[i := a][j := b];
        var r := Separate(es', ps[1..], hypot);
        assert Overlap(es[i], es[j], hypot) <= 0.0 ==> es' == es;
        TotalUpdate(es, i, a, X);
        TotalUpdate(es[i := a], j, b, X);
        TotalUpdate(es, i, a, Y);
        TotalUpdate(es[i := a], j, b, Y);
        match r
        case Ok(v) => Ok(v)
        case Coincident(i', j') => assert (i', j') in ps[1..]; Coincident(i', j')
  }

  /** The nested pair loop of `updateScene` over all enemies. */
  function SeparateAll(es: seq<Sprite>, hypot: Hypot): (r: Result<seq<Sprite>>)
    requires IsHypot(hypot)
    ensures r.Ok? ==> SameShape(es, r.value)
    ensures r.Ok? ==> Total(r.value, X) == Total(es, X) && Total(r.value, Y) == Total(es, Y)
    ensures r.Coincident? ==> r.i < r.j < |es|
    ensures |es| < 2 ==> r == Ok(es)
  {
    Separate(es, AllPairs(|es|), hypot)
  }

  /** Separating over `ps + qs` separates over `ps` and then, from the
      positions that produces, over `qs`; a failure in `ps` stops the pass. */
  lemma {:induction false} SeparateConcat(es: seq<Sprite>, ps: seq<(nat, nat)>, qs: seq<(nat, nat)>, hypot: Hypot)
    requires IsHypot(hypot)
    requires ValidPairs(ps + qs, |es|)
    ensures ValidPairs(ps, |es|) && ValidPairs(qs, |es|)
    ensures Separate(es, ps + qs, hypot) ==
      match Separate(es, ps, hypot)
      case Ok(v) => Separate(v, qs, hypot)
      case Coincident(i, j) => Coincident(i, j)
    decreases |ps|
  {
    assert forall k :: 0 <= k < |ps| ==> ps[k] == (ps + qs)[k];
    assert forall k :: 0 <= k < |qs| ==> qs[k] == (ps + qs)[|ps| + k];
    if |ps| == 0 {
      assert ps + qs == qs;
    } else {
      assert (ps + qs)[0] == ps[0];
      assert (ps + qs)[1..] == ps[1..] + qs;
      var (i, j) := ps[0];
      if Separable(es[i], es[j]) {
        var (a, b) := PushOffFrom(es[i], es[j], hypot);
        var es' := es[i := a][j := b];
        assert Separate(es, ps, hypot) == Separate(es', ps[1..], hypot);
        assert Separate(es, ps + qs, hypot) == Separate(es', ps[1..] + qs, hypot);
        SeparateConcat(es', ps[1..], qs, hypot);
      }
    }
  }

  /** Separating a single pair leaves that pair not colliding: an
      overlapping pair ends exactly tangent, any other pair is left alone. */
  lemma OnePairApart(u: seq<Sprite>, q: (nat, nat), hypot: Hypot)
    requires IsHypot(hypot)
    requires q.0 < q.1 < |u|
    ensures var r := Separate(u, [q], hypot);
      r.Ok? ==> !Collided(r.value[q.0], r.value[q.1], hypot)
  {
    var (i, j) := q;
    if Separable(u[i], u[j]) {
      var r := PushOffFrom(u[i], u[j], hypot);
      var v := u[i := r.0][j := r.1];
      assert Separate(u, [q], hypot) == Ok(v);
      assert v[i] == r.0 && v[j] == r.1;
      PushOffApart(u[i], u[j], hypot);
    }
  }

  /** Every listed pair is apart right after its own push: the pass over the
      first `m` pairs leaves the `m`-th pair not colliding. (Later pushes may
      move either enemy again, as in the script.) */
  lemma EachPairApartWhenVisited(es: seq<Sprite>, ps: seq<(nat, nat)>, m: nat, hypot: Hypot)
    requires IsHypot(hypot)
    requires ValidPairs(ps, |es|)
    requires 0 < m <= |ps|
    ensures ValidPairs(ps[..m], |es|)
    ensures var r := Separate(es, ps[..m], hypot);
      r.Ok? ==> !Collided(r.value[ps[m - 1].0], r.value[ps[m - 1].1], hypot)
  {
    assert ps[..m] == ps[..m - 1] + [ps[m - 1]];
    SeparateConcat(es, ps[..m - 1], [ps[m - 1]], hypot);
    var r := Separate(es, ps[..m - 1], hypot);
    if r.Ok? {
      OnePairApart(r.value, ps[m - 1], hypot);
    }
  }

  /** A pass that succeeds over a pair list succeeds over every prefix of it. */
  lemma SeparatePrefix(es: seq<Sprite>, ps: seq<(nat, nat)>, m: nat, hypot: Hypot)
    requires IsHypot(hypot)
    requires ValidPairs(ps, |es|)
    requires m <= |ps|
    ensures ValidPairs(ps[..m], |es|)
    ensures Separate(es, ps, hypot).Ok? ==> Separate(es, ps[..m], hypot).Ok?
  {
    var pre, post := ps[..m], ps[m..];
    assert ps == pre + post;
    SeparateConcat(es, pre, post, hypot);
    var p := Separate(es, pre, hypot);
    if p.Coincident? {
      assert Separate(es, pre + post, hypot) == Coincident(p.i, p.j);
    }
  }

  /** The separation pass of `updateScene` pushes every enemy pair apart in
      turn: when it succeeds, the `k`-th pair it visits is not colliding right
      after its own push. */
  lemma SeparateAllPushesEachPairApart(es: seq<Sprite>, k: nat, hypot: Hypot)
    requires IsHypot(hypot)
    requires k < |AllPairs(|es|)|
    ensures var ps := AllPairs(|es|);
      SeparateAll(es, hypot).Ok? ==>
        Separate(es, ps[..k + 1], hypot).Ok? &&
        !Collided(Separate(es, ps[..k + 1], hypot).value[ps[k].0], Separate(es, ps[..k + 1], hypot).value[ps[k].1], hypot)
  {
    var ps := AllPairs(|es|);
    SeparatePrefix(es, ps, k + 1, hypot);
    EachPairApartWhenVisited(es, ps, k + 1, hypot);
  }

  /** The last pair the separation pass visits, `(n - 2, n - 1)`, is not
      colliding in the positions `updateScene` ends with. */
  lemma SeparateAllLastPairApart(es: seq<Sprite>, hypot: Hypot)
    requires IsHypot(hypot)
    requires 2 <= |es|
    ensures var r := SeparateAll(es, hypot);
      r.Ok? ==> !Collided(r.value[|es| - 2], r.value[|es| - 1], hypot)
  {
    var ps := AllPairs(|es|);
    PairsFromLast(0, |es|);
    EachPairApartWhenVisited(es, ps, |ps|, hypot);
    assert ps[..|ps|] == ps;
  }

  /** The number of enemies touching the player. */
  function Hits(es: seq<Sprite>, p: Sprite, hypot: Hypot): (r: nat)
    requires IsHypot(hypot)
    ensures r <= |es|
  {
    if |es| == 0 then 0
    else (if Collided(es[0], p, hypot) then 1 else 0) + Hits(es[1..], p, hypot)
  }

  /** The damage loop: for each enemy in order, `progressBar.value -= 0.5`
      when it touches the player, the element clamping every write. The
      result is the starting health less `DamagePerHit` per touching enemy,
      clamped at 0; it never exceeds the starting health. */
  function Damage(h: real, es: seq<Sprite>, p: Sprite, hypot: Hypot): (r: real)
    requires IsHypot(hypot)
    requires 0.0 <= h
    ensures r == Clamp(h - DamagePerHit * Hits(es, p, hypot) as real)
    ensures 0.0 <= r <= h
    decreases |es|
  {
    if |es| == 0 then h
    else
      var h' := if Collided(es[0], p, hypot) then Clamp(h - DamagePerHit) else h;
      Damage(h', es[1..], p, hypot)
  }

  /** The world after the damage loop: player and enemies stay where they
      are, and health drops by `DamagePerHit` per enemy touching the player
      (clamped at 0), never rising. A helper of `Settle` that keeps the
      damage facts apart from the separation facts. */
  function AfterDamage(p: Sprite, es: seq<Sprite>, h: real, hypot: Hypot): (w: World)
    requires IsHypot(hypot)
    requires 0.0 <= h
    ensures w.player == p && w.enemies == es
    ensures w.health == Clamp(h - DamagePerHit * Hits(es, p, hypot) as real)
    ensures 0.0 <= w.health <= h
  {
    World(p, es, Damage(h, es, p, hypot))
  }

  /** The rest of `updateScene` once everybody has sought: the separation
      pass over all enemy pairs, then the damage loop against the player
      `p`. Only positions change; health drops by `DamagePerHit` per enemy
      touching `p` after separation (clamped at 0) and never rises. */
  function Settle(p: Sprite, es: seq<Sprite>, h: real, hypot: Hypot): (r: Result<World>)
    requires IsHypot(hypot)
    requires 0.0 <= h
    ensures r.Ok? <==> SeparateAll(es, hypot).Ok?
    ensures r.Ok? ==> r.value.player == p && SeparateAll(es, hypot) == Ok(r.value.enemies)
    ensures r.Ok? ==> SameShape(es, r.value.enemies)
    ensures r.Ok? ==> r.value.health == Clamp(h - DamagePerHit * Hits(r.value.enemies, p, hypot) as real)
    ensures r.Ok? ==> 0.0 <= r.value.health <= h
    ensures r.Coincident? ==> r.i < r.j < |es|
    ensures |es| < 2 ==> r.Ok?
  {
    var s := SeparateAll(es, hypot);
    if s.Coincident? then Coincident(s.i, s.j) else Ok(AfterDamage(p, s.value, h, hypot))
  }

  /** `updateScene` with `enemies[i].pushOffFrom(enemies[j])` in place of the
      undefined `pushOff`. The player ends where one seek toward the mouse
      takes it; the enemies are those of the separation pass run on the
      enemies after they seek the MOVED player; the enemy list keeps its
      length, radii and speeds; health drops by `DamagePerHit` per enemy that touches the moved
      player after separation (clamped at 0) and never rises. With fewer than
      two enemies there is no pair and the step always succeeds. */
  function UpdateScene(w: World, mouse: Point, hypot: Hypot): (r: Result<World>)
    requires IsHypot(hypot)
    requires 0.0 <= w.health
    ensures r.Ok? ==> r.value.player == MoveToward(w.player, mouse)
    ensures r.Ok? <==> SeparateAll(SeekAll(w.enemies, MoveToward(w.player, mouse).Center()), hypot).Ok?
    ensures r.Ok? ==> SeparateAll(SeekAll(w.enemies, r.value.player.Center()), hypot) == Ok(r.value.enemies)
    ensures r.Ok? ==> SameShape(w.enemies, r.value.enemies)
    ensures r.Ok? ==> r.value.health == Clamp(w.health - DamagePerHit * Hits(r.value.enemies, r.value.player, hypot) as real)
    ensures r.Ok? ==> 0.0 <= r.value.health <= w.health
    ensures r.Coincident? ==> r.i < r.j < |w.enemies|
    ensures |w.enemies| < 2 ==> r.Ok?
  {
    var p := MoveToward(w.player, mouse);
    var seeking := SeekAll(w.enemies, p.Center());
    var r := Settle(p, seeking, w.health, hypot);
    assert r.Ok? ==> SameShape(w.enemies, r.value.enemies) by {
      if r.Ok? {
        SameShapeTransitive(w.enemies, seeking, r.value.enemies);
      }
    }
    r
  }

  /** Every enemy seeks the player's NEW position: when no two enemies
      overlap after seeking, separation moves nobody and each enemy ends
      exactly one seek step toward the moved player. */
  lemma EnemiesSeekMovedPlayer(w: World, mouse: Point, hypot: Hypot)
    requires IsHypot(hypot)
    requires 0.0 <= w.health
    requires var p := MoveToward(w.player, mouse);
      forall i, j :: 0 <= i < j < |w.enemies| ==>
        Overlap(MoveToward(w.enemies[i], p.Center()), MoveToward(w.enemies[j], p.Center()), hypot) <= 0.0
    ensures UpdateScene(w, mouse, hypot).Ok?
    ensures var r := UpdateScene(w, mouse, hypot).value;
      forall k :: 0 <= k < |w.enemies| ==> r.enemies[k] == MoveToward(w.enemies[k], r.player.Center())
  {
    var p := MoveToward(w.player, mouse);
    var seeking := SeekAll(w.enemies, p.Center());
    var ps := AllPairs(|seeking|);
    assert forall k :: 0 <= k < |ps| ==> Overlap(seeking[ps[k].0], seeking[ps[k].1], hypot) <= 0.0;
    assert SeparateAll(seeking, hypot) == Ok(seeking);
  }

  /** The world the page starts with: the player and the five enemies of the
      script, and the health the markup gives the `<progress>` element. */
  function InitialWorld(markupHealth: real): (w: World)
    ensures |w.enemies| == 5
    ensures w.health == Clamp(markupHealth)
    ensures forall k :: 0 <= k < |w.enemies| ==> 0.0 < w.enemies[k].radius && 0.0 <= w.enemies[k].speed <= 1.0
    ensures 0.0 < w.player.radius && 0.0 <= w.player.speed <= 1.0
  {
    World(
      Sprite(250.0, 150.0, 30.0, 0.07),
      [ Sprite(80.0, 200.0, 20.0, 0.02),
        Sprite(200.0, 250.0, 17.0, 0.01),
        Sprite(150.0, 180.0, 22.0, 0.002),
        Sprite(0.0, 200.0, 10.0, 0.008),
        Sprite(400.0, 400.0, 15.0, 0.008) ],
      Clamp(markupHealth))
  }
}

=== FILE: sprites.dfy ===
/**
 The circle sprites of the chaser game and the three geometric operations of
 class `Sprite`: the collision test `collidedWith`, the proportional seek
 `moveToward` and the symmetric overlap resolution `pushOffFrom`.

 Coordinates are ideal reals standing for the JavaScript doubles. `Math.hypot`
 is not computable over the reals, so it is passed in as a function `hypot`
 that is assumed to be the exact Euclidean norm (`IsHypot`).
 */
module Sprites {
  import opened RealArith

  /** A point of the canvas: the mouse position or a sprite's centre. */
  datatype Point = Point(x: real, y: real)

  /** A circle sprite: centre, radius and seek speed. The colour and the
      player's image only matter for drawing and are not modelled. */
  datatype Sprite = Sprite(x: real, y: real, radius: real, speed: real) {
    function Center(): Point {
      Point(x, y)
    }
  }

  /** The type of `Math.hypot` restricted to two arguments. */
  type Hypot = (real, real) -> real

  /** `h` is the exact Euclidean norm: non-negative, with square `dx² + dy²`. */
  ghost predicate IsHypot(h: Hypot) {
    forall dx: real, dy: real :: 0.0 <= h(dx, dy) && h(dx, dy) * h(dx, dy) == dx * dx + dy * dy
  }

  function Sq(v: real): real {
    v * v
  }

  /** The squared distance between two points. */
  function SqDist(p: Point, q: Point): real {
    Sq(p.x - q.x) + Sq(p.y - q.y)
  }

  /** `v` lies on the closed segment between `a` and `b`. */
  predicate Between(a: real, v: real, b: real) {
    (a <= v <= b) || (b <= v <= a)
  }

  /** An exact `hypot` depends only on `dx² + dy²`; in particular it ignores signs. */
  lemma HypotUnique(hypot: Hypot, dx: real, dy: real, ex: real, ey: real)
    requires IsHypot(hypot)
    requires dx * dx + dy * dy == ex * ex + ey * ey
    ensures hypot(dx, dy) == hypot(ex, ey)
  {
    SquareRootUnique(hypot(dx, dy), hypot(ex, ey));
  }

  /** `collidedWith`: the distance between the centres is STRICTLY below the
      sum of the radii. Stated without a square root: the radii sum is
      positive and the squared distance is below its square. */
  function Collided(a: Sprite, b: Sprite, hypot: Hypot): (r: bool)
    requires IsHypot(hypot)
    ensures r <==> 0.0 < a.radius + b.radius && SqDist(a.Center(), b.Center()) < Sq(a.radius + b.radius)
  {
    LessIffSquareLess(hypot(a.x - b.x, a.y - b.y), a.radius + b.radius);
    hypot(a.x - b.x, a.y - b.y) < a.radius + b.radius
  }

  /** Collision does not depend on which sprite asks. */
  lemma CollidedSymmetric(a: Sprite, b: Sprite, hypot: Hypot)
    requires IsHypot(hypot)
    ensures Collided(a, b, hypot) == Collided(b, a, hypot)
  {
    assert Sq(a.x - b.x) == Sq(b.x - a.x);
    assert Sq(a.y - b.y) == Sq(b.y - a.y);
  }

  /** One coordinate of `moveToward`: `a` moves by `(t - a) * k`. The
      remaining offset to the target shrinks by the factor `1 - k`, a
      coordinate already on the target stays put, and for `k` in [0, 1] the
      result lies between the start and the target. */
  function Approach(a: real, t: real, k: real): (r: real)
    ensures r - t == (1.0 - k) * (a - t)
    ensures a == t ==> r == a
    ensures 0.0 <= k <= 1.0 ==> Between(a, r, t)
  {
    var o := t - a;
    var m := o * k;
    if 0.0 <= k <= 1.0 then
      if a <= t then
        MulLe(o, 0.0, k, 0.0, m);
        MulLe(o, k, 1.0, m, o);
        a + m
      else
        MulLe(-o, 0.0, k, 0.0, -m);
        MulLe(-o, k, 1.0, -m, -o);
        a + m
    else
      a + m
  }

  /** `moveToward`: each coordinate approaches the target's by the sprite's
      speed (see `Approach`); the radius and speed are untouched, a sprite
      already on the target stays put, and for a speed in [0, 1] the sprite
      never overshoots. */
  function MoveToward(s: Sprite, t: Point): (r: Sprite)
    ensures r.radius == s.radius && r.speed == s.speed
    ensures r.x - t.x == (1.0 - s.speed) * (s.x - t.x)
    ensures r.y - t.y == (1.0 - s.speed) * (s.y - t.y)
    ensures s.Center() == t ==> r == s
    ensures 0.0 <= s.speed <= 1.0 ==> Between(s.x, r.x, t.x) && Between(s.y, r.y, t.y)
  {
    s.(x := Approach(s.x, t.x, s.speed), y := Approach(s.y, t.y, s.speed))
  }

  /** `n` consecutive seeks toward a fixed target: the player chasing a mouse
      that does not move, or an enemy chasing a player who stands still. */
  function SeekRepeatedly(s: Sprite, t: Point, n: nat): Sprite
    decreases n
  {
    if n == 0 then s else SeekRepeatedly(MoveToward(s, t), t, n - 1)
  }

  /** `n` consecutive approaches of one coordinate. */
  function ApproachRepeatedly(a: real, t: real, k: real, n: nat): real
    decreases n
  {
    if n == 0 then a else ApproachRepeatedly(a + (t - a) * k, t, k, n - 1)
  }

  function Pow(b: real, n: nat): real {
    if n == 0 then 1.0 else b * Pow(b, n - 1)
  }

  /** Repeated seeks act on each coordinate independently. */
  lemma {:induction false} SeekRepeatedlyCoordinates(s: Sprite, t: Point, n: nat)
    ensures SeekRepeatedly(s, t, n)
         == s.(x := ApproachRepeatedly(s.x, t.x, s.speed, n), y := ApproachRepeatedly(s.y, t.y, s.speed, n))
    decreases n
  {
    if n > 0 {
      SeekRepeatedlyCoordinates(MoveToward(s, t), t, n - 1);
    }
  }

  /** After `n` approaches the offset to the target is `(1 - k)^n` times the
      original one. */
  lemma {:induction false} ApproachRepeatedlyOffset(a: real, t: real, k: real, n: nat)
    ensures ApproachRepeatedly(a, t, k, n) - t == Pow(1.0 - k, n) * (a - t)
    decreases n
  {
    if n > 0 {
      var a1 := a + (t - a) * k;
      ApproachRepeatedlyOffset(a1, t, k, n - 1);
      var b, q, o, o1, o2 := 1.0 - k, Pow(1.0 - k, n - 1), a - t, a1 - t, ApproachRepeatedly(a1, t, k, n - 1) - t;
      assert o1 == b * o;
      assert o2 == q * o1 by { ApproachRepeatedlyOffset(a1, t, k, n - 1); }
      ScaleTwice(b, q, o, o1, o2);
    }
  }

  /** Scaling by `b` and then by `q` is scaling by `b * q`. */
  lemma ScaleTwice(b: real, q: real, o: real, o1: real, o2: real)
    requires o1 == b * o && o2 == q * o1
    ensures o2 == (b * q) * o
  {
  }

  /** After `n` seeks toward a fixed target the sprite's offset to it is
      `(1 - speed)^n` times the original one: an exponential approach that
      reaches a distinct target only with speed 1. */
  lemma SeekRepeatedlyOffset(s: Sprite, t: Point, n: nat)
    ensures SeekRepeatedly(s, t, n).x - t.x == Pow(1.0 - s.speed, n) * (s.x - t.x)
    ensures SeekRepeatedly(s, t, n).y - t.y == Pow(1.0 - s.speed, n) * (s.y - t.y)
    ensures SeekRepeatedly(s, t, n).radius == s.radius && SeekRepeatedly(s, t, n).speed == s.speed
  {
    SeekRepeatedlyCoordinates(s, t, n);
    ApproachRepeatedlyOffset(s.x, t.x, s.speed, n);
    ApproachRepeatedlyOffset(s.y, t.y, s.speed, n);
  }

  /** With a speed in [0, 1], no number of seeks toward a fixed target
      overshoots it: the sprite stays between its start and the target. */
  lemma {:induction false} SeekRepeatedlyNeverOvershoots(s: Sprite, t: Point, n: nat)
    requires 0.0 <= s.speed <= 1.0
    ensures Between(s.x, SeekRepeatedly(s, t, n).x, t.x)
    ensures Between(s.y, SeekRepeatedly(s, t, n).y, t.y)
    decreases n
  {
    if n > 0 {
      var s1 := MoveToward(s, t);
      SeekRepeatedlyNeverOvershoots(s1, t, n - 1);
    }
  }

  /** The `distanceToMove` of `pushOffFrom`: radii sum minus centre distance. */
  function Overlap(a: Sprite, b: Sprite, hypot: Hypot): real {
    a.radius + b.radius - hypot(b.x - a.x, b.y - a.y)
  }

  /** `pushOffFrom` divides by the centre distance exactly when the circles
      overlap; this excludes the case where that distance is zero. */
  predicate Separable(a: Sprite, b: Sprite) {
    a.Center() != b.Center() || a.radius + b.radius <= 0.0
  }

  /** Overlapping separable circles are a positive distance apart. */
  lemma SeparableDistance(a: Sprite, b: Sprite, hypot: Hypot)
    requires IsHypot(hypot)
    requires Separable(a, b)
    ensures 0.0 < Overlap(a, b, hypot) ==> 0.0 < hypot(b.x - a.x, b.y - a.y)
  {
    var dx, dy := b.x - a.x, b.y - a.y;
    var d := hypot(dx, dy);
    if a.Center() != b.Center() {
      var xx, yy, dd := dx * dx, dy * dy, d * d;
      SquareSign(dx, xx);
      SquareSign(dy, yy);
      assert 0.0 < dd;
    }
  }

  /** Coincident circles with a positive radii sum overlap by that sum. */
  lemma CoincidentOverlap(a: Sprite, b: Sprite, hypot: Hypot)
    requires IsHypot(hypot)
    requires !Separable(a, b)
    ensures Overlap(a, b, hypot) == a.radius + b.radius && 0.0 < a.radius + b.radius
  {
    SquareRootUnique(hypot(b.x - a.x, b.y - a.y), 0.0);
  }

  /** `pushOffFrom`: when the circles overlap, both centres move apart along
      the line through them, each by half the overlap; otherwise nothing
      changes. Only positions change, and the two displacements are equal
      and opposite, so the midpoint of the two centres is preserved. */
  function PushOffFrom(a: Sprite, b: Sprite, hypot: Hypot): (r: (Sprite, Sprite))
    requires IsHypot(hypot)
    requires Separable(a, b)
    ensures r.0.radius == a.radius && r.0.speed == a.speed
    ensures r.1.radius == b.radius && r.1.speed == b.speed
    ensures Overlap(a, b, hypot) <= 0.0 ==> r == (a, b)
    ensures r.0.x - a.x == b.x - r.1.x && r.0.y - a.y == b.y - r.1.y
  {
    var dx, dy := b.x - a.x, b.y - a.y;
    var d := hypot(dx, dy);
    var m := a.radius + b.radius - d;
    if m > 0.0 then
      SeparableDistance(a, b, hypot);
      var ux, uy := dx / d, dy / d;
      (a.(x := a.x - ux * m / 2.0, y := a.y - uy * m / 2.0),
       b.(x := b.x + ux * m / 2.0, y := b.y + uy * m / 2.0))
    else
      (a, b)
  }

  /** After resolving an overlap the circles are exactly tangent: the new
      centre distance equals the sum of the radii, so they no longer collide. */
  lemma PushOffLeavesTangent(a: Sprite, b: Sprite, hypot: Hypot)
    requires IsHypot(hypot)
    requires Separable(a, b)
    requires 0.0 < Overlap(a, b, hypot)
    ensures var r := PushOffFrom(a, b, hypot);
      hypot(r.1.x - r.0.x, r.1.y - r.0.y) == a.radius + b.radius
    ensures var r := PushOffFrom(a, b, hypot);
      !Collided(r.0, r.1, hypot)
  {
    var r := PushOffFrom(a, b, hypot);
    var dx, dy := b.x - a.x, b.y - a.y;
    var d := hypot(dx, dy);
    var s := a.radius + b.radius;
    var m := s - d;
    SeparableDistance(a, b, hypot);
    var ux, uy := dx / d, dy / d;
    UnitVector(dx, dy, d, ux, uy);
    // the new centre offset is the unit vector scaled by the radii sum
    var ex, ey := r.1.x - r.0.x, r.1.y - r.0.y;
    assert ex == ux * d + ux * m && ey == uy * d + uy * m;
    ScaledUnit(ux, uy, s, ex, ey);
    SquareRootUnique(hypot(ex, ey), s);
    HypotUnique(hypot, ex, ey, r.0.x - r.1.x, r.0.y - r.1.y);
  }

  /** Circles that do not overlap do not collide. */
  lemma NoOverlapNoCollision(a: Sprite, b: Sprite, hypot: Hypot)
    requires IsHypot(hypot)
    requires Overlap(a, b, hypot) <= 0.0
    ensures !Collided(a, b, hypot)
  {
    HypotUnique(hypot, a.x - b.x, a.y - b.y, b.x - a.x, b.y - a.y);
  }

  /** Whatever the overlap, after `pushOffFrom` the two sprites do not collide. */
  lemma PushOffApart(a: Sprite, b: Sprite, hypot: Hypot)
    requires IsHypot(hypot)
    requires Separable(a, b)
    ensures var r := PushOffFrom(a, b, hypot);
      !Collided(r.0, r.1, hypot)
  {
    if 0.0 < Overlap(a, b, hypot) {
      PushOffLeavesTangent(a, b, hypot);
    } else {
      NoOverlapNoCollision(a, b, hypot);
    }
  }

  /** Each centre moves along the centre line, away from the other sprite. */
  lemma PushOffAlongCentreLine(a: Sprite, b: Sprite, hypot: Hypot)
    requires IsHypot(hypot)
    requires Separable(a, b)
    requires 0.0 < Overlap(a, b, hypot)
    ensures var r := PushOffFrom(a, b, hypot);
      (r.0.x - a.x) * (b.y - a.y) == (r.0.y - a.y) * (b.x - a.x)
    ensures var r := PushOffFrom(a, b, hypot);
      (r.0.x - a.x) * (b.x - a.x) + (r.0.y - a.y) * (b.y - a.y) < 0.0
  {
    var r := PushOffFrom(a, b, hypot);
    var dx, dy := b.x - a.x, b.y - a.y;
    var d := hypot(dx, dy);
    var h := (a.radius + b.radius - d) / 2.0;
    SeparableDistance(a, b, hypot);
    var ux, uy := dx / d, dy / d;
    UnitVector(dx, dy, d, ux, uy);
    // the displacement of `a` is `-h` times the unit vector toward `b`
    var px, py := ux * h, uy * h;
    assert r.0.x - a.x == -px;
    assert r.0.y - a.y == -py;
    assert px * dy == py * dx by {
      assert px * (uy * d) == py * (ux * d);
    }
    var hd := h * d;
    MulLt(h, 0.0, d, 0.0, hd);
    assert px * dx + py * dy == h * (ux * dx + uy * dy);
  }

  /** Swapping the two sprites swaps the results: the resolution is symmetric. */
  lemma PushOffSymmetric(a: Sprite, b: Sprite, hypot: Hypot)
    requires IsHypot(hypot)
    requires Separable(a, b)
    ensures Separable(b, a)
    ensures PushOffFrom(b, a, hypot) == (PushOffFrom(a, b, hypot).1, PushOffFrom(a, b, hypot).0)
  {
    var dx, dy := b.x - a.x, b.y - a.y;
    var ex, ey := a.x - b.x, a.y - b.y;
    assert ex == -dx && ey == -dy;
    HypotUnique(hypot, ex, ey, dx, dy);
    var d := hypot(dx, dy);
    var m := Overlap(a, b, hypot);
    assert Overlap(b, a, hypot) == m;
    if 0.0 < m {
      SeparableDistance(a, b, hypot);
      DivNeg(dx, d);
      DivNeg(dy, d);
      assert ex / d == -(dx / d);
      assert ey / d == -(dy / d);
      var r := PushOffFrom(a, b, hypot);
      var r' := PushOffFrom(b, a, hypot);
      assert r'.0.x == b.x - (ex / d) * m / 2.0;
      assert r'.0.x == r.1.x;
      assert r'.0.y == r.1.y;
      assert r'.1.x == r.0.x;
      assert r'.1.y == r.0.y;
    }
  }
}
